=== FILE: README.md ===
# Media canvas and timeline editor — Dafny model

The editor places one image or video on a canvas. The user drags the item, resizes it from its four corner
handles, zooms the canvas with Ctrl+wheel, edits width, height, start and end in number fields, and plays
the item against a shared time counter. This project models the pure rules under the React plumbing:

- `MediaTypes`: the item record (`MediaType`: kind, file, width, height, start/end time, position). It also
  holds the invariant `WellFormed`: both sides at least 50 and `0 <= startTime <= endTime`.
- `MediaCanvas` (src/components/MediaCanvas.tsx): visibility, the 0.1 s drift rule and the play-state sync of
  the native video element, the drag and corner-resize gestures as an explicit `Gesture` value, and the zoom
  clamp.
- `Timeline` (src/components/Timeline.tsx): the `Clock` (time and play flag), the frame-loop epoch and `Tick`,
  the frame loop over a sequence of frame instants, the play toggle, the clamped and rounded seek, the
  keyboard controls and the rewind on item change.
- `MediaControls` (src/components/MediaControls.tsx): the field-edit handler with its clamps and NaN rejection.
- `Page` (src/app/page.tsx): the page state and the file-upload handler that builds the initial item.
- `Editor`: the page's wiring of all of the above into one `Session` driven by `Event`s. It proves that the
  invariant holds from the start state over any run of admissible events (video durations not negative).

Numbers are Dafny `real`s. NaN from `parseInt`/`parseFloat` is `None` of an `Option`. Instants from
`performance.now()` and pointer coordinates are parameters. The browser's answer to `video.play()` is a
boolean parameter. `Number(x.toFixed(1))` is rounding of the exact value to the nearest tenth, with ties
away from zero, as ECMAScript's `toFixed` defines it.

Some behaviour of the code is easy to miss; the model follows the code:

- Uploading a new file does not reset an active drag or resize (`Editor.UploadReplacesItem`).
- Every item update is a new object. The timeline's reset effect therefore fires on every drag step, resize
  step and field edit, not only on a new upload. It rewinds the clock to 0, not to `startTime`, and stops
  playback (`Editor.ItemUpdateRewindsClock`, `Editor.ItemChangeRewinds`). The item is rendered hidden while
  the time is outside its range, so after such an update an item whose range starts after 0 cannot be
  pressed until the time reaches its start.
- A video whose metadata never loads leaves the editor cleared, with no item (`Page.HandleFileUpload`).
- The seek rounds after clamping. The stored time can therefore leave `[startTime, endTime]` by up to 0.05 s
  (`Timeline.SeekCanPassEnd`).
- A seek made with the arrow keys during playback is overwritten by the next frame, because the loop's epoch
  is not recomputed (`Editor.SeekDuringPlaybackIsOverwritten`).

## Model

| member | source | states |
|---|---|---|
| `MediaCanvas.IsVisible` | src/components/MediaCanvas.tsx:75-78 | With no item nothing is visible. With an item it is visible exactly when `startTime <= t <= endTime`, inclusive at both ends. |
| `Timeline.VisibleIffClampIsIdentity` | src/components/MediaCanvas.tsx:75-78 | With no item nothing is visible. Otherwise the item is visible exactly when clamping the time into its range leaves the time unchanged. Both ends of the range are visible, and so is every clamped time. |
| `Timeline.ClampTime` | src/components/Timeline.tsx:61-64 | The clamped time lies in `[startTime, endTime]`. A time already inside is unchanged. A time before the range gives the start and one after it gives the end. |
| `MediaCanvas.SyncPosition` | src/components/MediaCanvas.tsx:108-116 | The native element is rewritten if and only if the item is a video and the element is more than 0.1 s from the logical time. When rewritten, it is set to exactly the logical time, so afterwards the gap is at most 0.1 s. The paused state is untouched. |
| `MediaCanvas.SyncPlayback` | src/components/MediaCanvas.tsx:80-105 | For a video, a play-state change seeks the element to the logical time. The element ends up paused unless play was requested and the browser accepted it. Without a video element nothing changes. |
| `MediaCanvas.DriftSyncSettles` | src/components/MediaCanvas.tsx:80-116 | Right after the play-state sync the drift rule has nothing to correct. Applying the drift rule twice equals applying it once. |
| `MediaCanvas.Resize` | src/components/MediaCanvas.tsx:165-193 | Width and height stay at least 50. Only size and position change. With `w` the right edge stays fixed, with `n` the bottom edge stays fixed, and with `e`/`s` the left/top edge stays fixed. The grabbed edge moves by the pointer delta unless that would make the side shorter than 50, in which case the side is exactly 50. |
| `MediaCanvas.ResizeAtPressPointIsIdentity` | src/components/MediaCanvas.tsx:165-193 | If the pointer returns to the press point, the resize gives back the original item, provided its sides were at least 50. |
| `MediaCanvas.ResizeExamples` | src/components/MediaCanvas.tsx:169-186 | `se` with delta (+30, -10) on 100x100 gives 130x90 in place. `nw` with delta (+20, +20) on 100x100 at (0,0) gives 80x80 at (20,20). |
| `MediaCanvas.ResizeKeepsWellFormed` | src/components/MediaCanvas.tsx:174-193 | A resize from a well-formed item yields a well-formed item. |
| `MediaCanvas.PointerDown` | src/components/MediaCanvas.tsx:118-163 | A press with no item, or on an item hidden at the current time, changes nothing. A press on the body starts a drag whose anchor plus the item's position is the pointer. A press on a handle starts a resize that captures the handle, the item and the press point. |
| `MediaCanvas.PointerMove` | src/components/MediaCanvas.tsx:130-194 | When idle no update is emitted. During a drag an update is emitted only when an item exists; it changes only the position, and position plus anchor equals the pointer. During a resize the update is the resize of the item captured at the press. |
| `MediaCanvas.PointerUp` | src/components/MediaCanvas.tsx:142-144 | A release always ends the gesture. |
| `MediaCanvas.DragFollowsPointer` | src/components/MediaCanvas.tsx:118-140 | A drag moves the item by exactly the pointer's travel since the press. Moving the pointer back to the press point restores the item. |
| `MediaCanvas.NoDragFromHandleOrAfterRelease` | src/components/MediaCanvas.tsx:118-144 | A press on a handle never starts a drag. A move after a release emits no update. |
| `MediaCanvas.Wheel` | src/components/MediaCanvas.tsx:206-212 | Without Ctrl the zoom is unchanged. With Ctrl it ends in `[0.5, 2]`. Scrolling down never zooms in and scrolling up never zooms out. An unclamped step is exactly the 0.9 or 1.1 factor. A step below 0.5 gives exactly 0.5, and a step above 2 gives exactly 2. |
| `Timeline.Epoch` | src/components/Timeline.tsx:32 | The epoch chosen at the resume instant makes the elapsed time there equal the clock time, and it lies no later than the resume instant for a non-negative time. |
| `Timeline.Elapsed` | src/components/Timeline.tsx:37 | The epoch plus the elapsed seconds, in milliseconds, gives back the frame instant. The elapsed time is non-negative for frames at or after the epoch. |
| `Timeline.ElapsedContinuesFromResume` | src/components/Timeline.tsx:32-37 | The elapsed time is the clock time at resume plus the wall-clock time since the resume instant. At the resume instant it equals the clock time. |
| `Timeline.StartLoop` | src/components/Timeline.tsx:29-33 | The frame loop starts if and only if the clock plays and an item exists. Its epoch makes the elapsed time at the start instant equal the clock time. |
| `Timeline.Tick` | src/components/Timeline.tsx:35-47 | At or past the end, playback stops at `startTime`. Before the end, the time becomes the elapsed time, strictly below the end, and the play flag is kept. The time never passes the end. |
| `Timeline.RunFrames` | src/components/Timeline.tsx:35-49 | When the loop is still playing, the time is the last frame's elapsed time and is below the end. When the loop has stopped, the clock is stopped at the start. A paused clock is left alone. A playing loop is still playing at the end exactly when every frame's elapsed time is below the end. |
| `Timeline.ResumedPlaybackStaysInRange` | src/components/Timeline.tsx:29-49 | Playback resumed inside the range, with frames no earlier than the resume instant, stays inside the range. |
| `Timeline.TogglePlay` | src/components/Timeline.tsx:20-27 | With no item or with an image nothing changes. For a video the play flag flips exactly once. At or past the end the time first rewinds to the start; before the end the time is kept. |
| `Timeline.ToggleTwice` | src/components/Timeline.tsx:20-27 | Pressing play twice restores the play flag. Before the end it restores the whole clock. |
| `Timeline.RoundTenth` | src/components/Timeline.tsx:65 | The result is a whole number of tenths within 0.05 of the input. A value already on the tenth grid is unchanged. On a tie the result moves away from zero, as `toFixed` does. |
| `Timeline.Seek` | src/components/Timeline.tsx:59-66 | With no item nothing changes. The play flag is kept. The stored time is on the tenth grid and within 0.05 s of the requested time clamped into the range, hence within 0.05 s of `[startTime, endTime]`. An in-range time on the grid is stored exactly. For a non-negative range, a tie after the clamp rounds up, as `toFixed` does. |
| `Timeline.SeekCanPassEnd` | src/components/Timeline.tsx:59-66 | With the range [0, 5.06], a seek far past the end stores 5.1, which is outside the range and not visible. |
| `Timeline.KeyDown` | src/components/Timeline.tsx:76-91 | Space acts as the play toggle, which means video only with the same rewind. The arrows seek 0.1 s back or forward through the same clamp and keep the play flag. Other keys change nothing. |
| `Timeline.NudgeRoundTrip` | src/components/Timeline.tsx:84-90 | On the tenth grid and with room before the end, the right arrow moves the time exactly 0.1 s forward and the left arrow undoes it. |
| `MediaControls.HandleChange` | src/components/MediaControls.tsx:18-42 | An update is emitted exactly for a parsed value on a known field. Width and height store `max(50, v)`. The start is clamped into `[0, endTime]` and the end is kept at or after the start. In-range values are stored as typed, and every other field is unchanged. |
| `MediaControls.EditKeepsWellFormed` | src/components/MediaControls.tsx:18-41 | Every edit keeps sides at least 50 and `0 <= startTime <= endTime`. |
| `MediaControls.EditIsIdempotent` | src/components/MediaControls.tsx:18-41 | Typing the same value again changes nothing further. |
| `Page.BeginUpload` | src/app/page.tsx:23-30 | With no file chosen nothing changes. Otherwise the item is cleared, playback stops and the time is 0. |
| `Page.IsVideoFile` | src/app/page.tsx:35 | A file is a video exactly when its MIME type begins with the six characters `video/`. |
| `Page.InitialMedia` | src/app/page.tsx:35-66 | The item is a video exactly when the MIME type starts with `video/`. It is 320x240 at (100,100) from time 0. It ends at the duration for a video or at 5 s for an image. It is well formed if and only if the duration is not negative, and always for an image. |
| `Page.HandleFileUpload` | src/app/page.tsx:23-67 | With no file nothing changes. Otherwise the clock stops at 0. An image becomes the initial record at once. A video becomes the initial record with the reported duration, or leaves no item when its metadata never loads. A new item is well formed when the duration is not negative. |
| `Editor.ApplyUpdate` | src/app/page.tsx:85-98 | An emitted item update is stored and the clock is rewound and stopped. No update changes nothing. The gesture and zoom are untouched. |
| `Editor.SetClock` | src/components/Timeline.tsx:29-33 | When play turns on, the epoch is taken at that instant so that the elapsed time equals the clock time. Otherwise the epoch is kept. |
| `Editor.Step` | src/app/page.tsx:85-105 | Zoom changes only on a wheel event and the gesture only on a press or release; a release leaves no gesture. The item changes only on an upload, a move or a field edit, and then the clock is rewound and stopped. A press while the item is hidden changes nothing. |
| `Editor.Run` | src/app/page.tsx:85-105 | An empty run changes nothing. A run without wheel events keeps the zoom. A run ending in a release ends with no gesture. |
| `Editor.InitialKeepsInvariant` | src/app/page.tsx:19-21 | The start state (no item, clock at 0, zoom 1, no gesture) satisfies the invariant. |
| `Editor.StepKeepsInvariant` | src/app/page.tsx:93-105 | Every event keeps the invariant: well-formed item, zoom in `[0.5, 2]`, only a video plays, and a resize works from a well-formed item. |
| `Editor.RunKeepsInvariant` | src/app/page.tsx:18-105 | From a state satisfying the invariant, any sequence of admissible events keeps it. Admissible means every reported video duration is not negative. |
| `Editor.FramesRunTheLoop` | src/components/Timeline.tsx:29-56 | A run of frame events drives the clock exactly as the timeline's frame loop `RunFrames` does. The item, epoch, gesture and zoom are unchanged. |
| `Editor.EditorPlaybackStaysInRange` | src/components/Timeline.tsx:29-49 | After resuming inside the range, frames no earlier than the resume instant keep the editor's time at or after the start. While playing, the time also stays before the end. |
| `Editor.ItemChangeRewinds` | src/components/Timeline.tsx:68-73 | Any event that changes the item rewinds and stops the clock. A new item whose range starts after 0 is then hidden, and a press on it does nothing. |
| `Editor.ItemUpdateRewindsClock` | src/components/Timeline.tsx:68-73 | A drag or resize step that emits an update stores it and rewinds and stops the clock. |
| `Editor.SeekDuringPlaybackIsOverwritten` | src/components/Timeline.tsx:29-56 | During playback an arrow-key seek followed by a frame gives the same clock as the frame alone. |
| `Editor.ResumeIsDriftFree` | src/components/Timeline.tsx:29-46 | Resuming a paused video before its end starts playing at the same time. A frame at the resume instant keeps that time. |
| `Editor.WheelLeavesItemAlone` | src/components/MediaCanvas.tsx:206-213 | A wheel event changes only the zoom and keeps it in range. |
| `Editor.UploadReplacesItem` | src/app/page.tsx:23-66 | An upload rewinds the clock and keeps the gesture. An image, or a video with its duration, becomes the initial item. A video whose metadata never loads leaves no item. An upload with no file changes nothing. |

## Left out

- Chorded presses. Neither press handler checks which mouse button was pressed, so a second press before a release is possible. A body press then a handle press leaves the drag flag set and adds a resize listener, so every move emits two updates. Two handle presses leave two resize listeners. In the model a second press replaces the gesture.
- React hooks, effect scheduling, dependency arrays and JSX rendering. Each effect is modelled only as the rule it computes; `Editor.Step` applies them in one step per event.
- Listener registration and removal for drag and resize. The active gesture is the explicit `Gesture` value. The source keeps a drag flag and a per-press resize listener. They are exclusive only when every press is followed by a release: a handle press stops propagation, and the drag handler ignores handle targets.
- Object-URL creation and revocation for the video and image sources. This is browser resource handling. The image URL is created on every render and never revoked.
- The promise returned by `video.play()` and the swallowed error. Only their outcome is modelled, as the `playAccepted` parameter of `MediaCanvas.SyncPlayback`.
- The asynchronous metadata wait, `setTimeout` and the `File`/`URL` APIs. The MIME type is an input, and so is the video duration, which is `None` when the metadata never loads.
- `requestAnimationFrame` and `performance.now()`. Frame instants are parameters.
- Parsing of the field text. `MediaControls.HandleChange` receives the parsed number, or `None` for NaN. `parseInt` truncation of width and height is not modelled.
- Floating point. All numbers are exact reals, so infinities, a NaN duration and rounding of `0.9`/`1.1` products are not modelled.
- The theme toggle, CSS modules and layout.

=== FILE: editor.dfy ===
/** The editor as a whole: the page's state together with the canvas's
    gesture and zoom and the timeline's frame-loop epoch, driven by one
    event at a time. Every item update goes through the page's setter and
    produces a new item, and the timeline answers every new item by
    rewinding and stopping the clock. */
module Editor {
  import opened Wrappers
  import opened MediaTypes
  import opened MediaCanvas
  import opened Timeline
  import opened MediaControls
  import opened Page

  /** Everything the editor remembers between events. `epoch` is the frame
      loop's time origin, meaningful while the clock plays. */
  datatype Session = Session(
    media: Option<MediaType>,
    clock: Clock,
    epoch: real,
    gesture: Gesture,
    zoom: real)

  /** The page's start state, with no gesture, zoom 1 and an unused epoch. */
  const Initial: Session :=
    Session(InitialState.media, Clock(InitialState.currentTime, InitialState.isPlaying), 0.0, Idle, 1.0)

  /** The inputs the editor reacts to. Instants are in milliseconds. */
  datatype Event =
    | Upload(file: Option<File>, duration: Option<real>)
    | PointerPress(target: Target, at: Point)
    | PointerMoveTo(at: Point)
    | PointerRelease
    | WheelTurn(deltaY: real, ctrlKey: bool)
    | FieldEdit(property: string, value: Option<real>)
    | PlayButton(nowMs: real)
    | Key(code: string, nowMs: real)
    | Frame(nowMs: real)

  /** An item update from the canvas or the controls: the new item is
      stored and, being a new item, rewinds and stops the clock. */
  function ApplyUpdate(s: Session, update: Option<MediaType>): (r: Session)
    ensures update.None? ==> r == s
    ensures update.Some? ==> r.media == update && r.clock == Rewound
    ensures r.gesture == s.gesture && r.zoom == s.zoom
  {
    if update.None? then s else s.(media := update, clock := Rewound)
  }

  /** A clock change from the play button or a key. When the play flag turns
      on, the frame loop starts with an epoch taken at that instant; a
      change of time while already playing leaves the loop's epoch alone. */
  function SetClock(s: Session, c: Clock, nowMs: real): (r: Session)
    ensures r.clock == c && r.media == s.media && r.gesture == s.gesture && r.zoom == s.zoom
    ensures c.playing && !s.clock.playing && s.media.Some? ==> Elapsed(nowMs, r.epoch) == c.time
    ensures s.clock.playing || !c.playing ==> r.epoch == s.epoch
  {
    var loop := if s.clock.playing then None else StartLoop(s.media, c, nowMs);
    var epoch := if loop.Some? then loop.value else s.epoch;
    s.(clock := c, epoch := epoch)
  }

  /** One event. The zoom changes only on a wheel event, the gesture only on
      a press or a release, and the item only on an upload, a pointer move
      or a field edit; whenever the item changes the clock is rewound and
      stopped. */
  function Step(s: Session, e: Event): (r: Session)
    ensures !e.WheelTurn? ==> r.zoom == s.zoom
    ensures !e.PointerPress? && !e.PointerRelease? ==> r.gesture == s.gesture
    ensures e.PointerRelease? ==> r.gesture.Idle?
    ensures r.media != s.media ==> (e.Upload? || e.PointerMoveTo? || e.FieldEdit?) && r.clock == Rewound
    ensures e.PointerPress? && !IsVisible(s.media, s.clock.time) ==> r == s
  {
    match e
    case Upload(file, duration) =>
      var a := HandleFileUpload(AppState(s.media, s.clock.time, s.clock.playing), file, duration);
      s.(media := a.media, clock := Clock(a.currentTime, a.isPlaying))
    case PointerPress(target, at) => s.(gesture := PointerDown(s.media, s.clock.time, s.gesture, target, at))
    case PointerMoveTo(at) => ApplyUpdate(s, PointerMove(s.gesture, s.media, at))
    case PointerRelease => s.(gesture := PointerUp(s.gesture))
    case WheelTurn(deltaY, ctrlKey) => s.(zoom := Wheel(s.zoom, deltaY, ctrlKey))
    case FieldEdit(property, value) =>
      if s.media.None? then s else ApplyUpdate(s, HandleChange(s.media.value, property, value))
    case PlayButton(nowMs) => SetClock(s, TogglePlay(s.media, s.clock), nowMs)
    case Key(code, nowMs) => SetClock(s, KeyDown(code, s.media, s.clock), nowMs)
    case Frame(nowMs) =>
      if s.clock.playing && s.media.Some? then s.(clock := Tick(s.media.value, s.clock, s.epoch, nowMs))
      else s
  }

  /** A run of events, one step after another. A run without wheel events
      keeps the zoom, and a run that ends with a release ends with no
      gesture. */
  function Run(s: Session, events: seq<Event>): (r: Session)
    ensures |events| == 0 ==> r == s
    ensures (forall i :: 0 <= i < |events| ==> !events[i].WheelTurn?) ==> r.zoom == s.zoom
    ensures |events| > 0 && events[|events| - 1].PointerRelease? ==> r.gesture.Idle?
    decreases |events|
  {
    if |events| == 0 then s else Run(Step(s, events[0]), events[1..])
  }

  /** What holds between any two events: the item is well formed, the zoom
      is within [0.5, 2], only a video plays, and a resize in progress works
      from a well-formed item. */
  predicate Invariant(s: Session) {
    && (s.media.Some? ==> WellFormed(s.media.value))
    && MinZoom <= s.zoom <= MaxZoom
    && (s.clock.playing ==> IsVideo(s.media))
    && (s.gesture.Resizing? ==> WellFormed(s.gesture.start))
  }

  /** The one assumption about the outside world: a video's reported
      duration is not negative. */
  predicate Admissible(e: Event) {
    e.Upload? && e.duration.Some? ==> e.duration.value >= 0.0
  }

  lemma InitialKeepsInvariant()
    ensures Invariant(Initial)
  {
  }

  /** Every admissible event keeps the invariant. */
  lemma StepKeepsInvariant(s: Session, e: Event)
    requires Invariant(s) && Admissible(e)
    ensures Invariant(Step(s, e))
  {
  }

  /** Any run of admissible events from a state satisfying the invariant
      ends in a state satisfying it. */
  lemma {:induction false} RunKeepsInvariant(s: Session, events: seq<Event>)
    requires Invariant(s)
    requires forall i :: 0 <= i < |events| ==> Admissible(events[i])
    ensures Invariant(Run(s, events))
    decreases |events|
  {
    if |events| > 0 {
      StepKeepsInvariant(s, events[0]);
      forall i | 0 <= i < |events[1..]|
        ensures Admissible(events[1..][i])
      {
        assert events[1..][i] == events[i + 1];
      }
      RunKeepsInvariant(Step(s, events[0]), events[1..]);
    }
  }

  /** The animation frames at the instants `nowsMs`, as events. */
  function FrameEvents(nowsMs: seq<real>): (r: seq<Event>)
    ensures |r| == |nowsMs|
    ensures forall i :: 0 <= i < |r| ==> r[i] == Frame(nowsMs[i])
  {
    seq(|nowsMs|, i requires 0 <= i < |nowsMs| => Frame(nowsMs[i]))
  }

  /** Feeding the editor a run of frames is the timeline's frame loop: the
      clock ends where `RunFrames` leaves it, and the item, the epoch, the
      gesture and the zoom stay as they were. */
  lemma {:induction false} FramesRunTheLoop(s: Session, nowsMs: seq<real>)
    requires s.media.Some?
    ensures var r := Run(s, FrameEvents(nowsMs));
            r.clock == RunFrames(s.media.value, s.clock, s.epoch, nowsMs) &&
            r == s.(clock := r.clock)
    decreases |nowsMs|
  {
    if |nowsMs| > 0 {
      var events := FrameEvents(nowsMs);
      var next := Step(s, events[0]);
      assert events[1..] == FrameEvents(nowsMs[1..]);
      FramesRunTheLoop(next, nowsMs[1..]);
      if !s.clock.playing {
        assert next == s;
      }
    }
  }

  /** Hence an editor that resumes playback inside the range and then only
      receives frames no earlier than the resume instant keeps its time in
      the range. */
  lemma EditorPlaybackStaysInRange(s: Session, resumeMs: real, nowsMs: seq<real>)
    requires s.media.Some?
    requires s.media.value.startTime <= s.clock.time < s.media.value.endTime
    requires s.epoch == Epoch(resumeMs, s.clock.time)
    requires forall i :: 0 <= i < |nowsMs| ==> resumeMs <= nowsMs[i]
    ensures var r := Run(s, FrameEvents(nowsMs));
            s.media.value.startTime <= r.clock.time &&
            (r.clock.playing ==> r.clock.time < s.media.value.endTime)
  {
    FramesRunTheLoop(s, nowsMs);
    ResumedPlaybackStaysInRange(s.media.value, s.clock, resumeMs, nowsMs);
  }

  /** Moving or resizing the item, like editing a field, hands the page a
      new item, so playback stops and the time returns to 0 even mid-play. */
  lemma ItemUpdateRewindsClock(s: Session, at: Point)
    requires PointerMove(s.gesture, s.media, at).Some?
    ensures Step(s, PointerMoveTo(at)).clock == Rewound
    ensures Step(s, PointerMoveTo(at)).media == PointerMove(s.gesture, s.media, at)
  {
  }

  /** A seek during playback does not move the frame loop's epoch, so the
      next frame overwrites it with the elapsed time. */
  lemma SeekDuringPlaybackIsOverwritten(s: Session, code: string, keyMs: real, frameMs: real)
    requires s.clock.playing && s.media.Some?
    requires code == "ArrowLeft" || code == "ArrowRight"
    ensures Step(Step(s, Key(code, keyMs)), Frame(frameMs)).clock == Step(s, Frame(frameMs)).clock
  {
  }

  /** Resuming is drift-free: pressing play on a paused video before its end
      starts the loop so that a frame at the same instant keeps the time. */
  lemma ResumeIsDriftFree(s: Session, nowMs: real)
    requires IsVideo(s.media) && !s.clock.playing
    requires s.clock.time < s.media.value.endTime
    ensures var p := Step(s, PlayButton(nowMs));
            p.clock == Clock(s.clock.time, true) &&
            Step(p, Frame(nowMs)).clock == p.clock
  {
  }

  /** Zooming changes only the zoom: the item, the clock and the gesture
      stay as they were. */
  lemma WheelLeavesItemAlone(s: Session, deltaY: real, ctrlKey: bool)
    ensures var r := Step(s, WheelTurn(deltaY, ctrlKey));
            r.media == s.media && r.clock == s.clock && r.gesture == s.gesture
    ensures Invariant(s) ==> MinZoom <= Step(s, WheelTurn(deltaY, ctrlKey)).zoom <= MaxZoom
  {
  }

  /** Any change of the item rewinds and stops the clock, so an item whose
      range starts after 0 is then hidden and cannot be pressed until the
      time reaches its start. */
  lemma ItemChangeRewinds(s: Session, e: Event, target: Target, at: Point)
    ensures Step(s, e).media != s.media ==> Step(s, e).clock == Rewound
    ensures var r := Step(s, e);
            r.media != s.media && r.media.Some? && r.media.value.startTime > 0.0 ==>
              !IsVisible(r.media, r.clock.time) && Step(r, PointerPress(target, at)) == r
  {
  }

  /** Uploading a file stops the clock at 0 and leaves an active gesture as
      it was. An image, or a video whose metadata arrives, becomes the new
      item; a video whose metadata never arrives leaves no item. */
  lemma UploadReplacesItem(s: Session, f: File, duration: Option<real>)
    ensures var r := Step(s, Upload(Some(f), duration));
            r.clock == Rewound && r.gesture == s.gesture
    ensures IsVideoFile(f) && duration.None? ==> Step(s, Upload(Some(f), duration)).media.None?
    ensures IsVideoFile(f) && duration.Some? ==>
              Step(s, Upload(Some(f), duration)).media == Some(InitialMedia(f, duration.value))
    ensures !IsVideoFile(f) ==> Step(s, Upload(Some(f), duration)).media == Some(InitialMedia(f, 0.0))
    ensures Step(s, Upload(None, duration)) == s
  {
  }
}

=== FILE: media_canvas.dfy ===
/** The canvas: when the item shows, how the native video element is kept
    in step with the logical clock, the drag and corner-resize gestures, and
    the Ctrl+wheel zoom. */
module MediaCanvas {
  import opened Wrappers
  import opened MediaTypes

  // ---------------------------------------------------------------------
  // Visibility

  /** The item is displayed only while the logical time lies inside its
      time range, both ends included; with no item nothing is displayed. */
  function IsVisible(media: Option<MediaType>, currentTime: real): (r: bool)
    ensures r ==> media.Some?
    ensures media.Some? ==>
              (r <==> media.value.startTime <= currentTime && currentTime <= media.value.endTime)
  {
    if media.None? then false
    else currentTime >= media.value.startTime && currentTime <= media.value.endTime
  }

  // ---------------------------------------------------------------------
  // The native video element

  /** What the model tracks of the browser's video element: its own
      playback position and whether it is paused. */
  datatype NativeVideo = NativeVideo(position: real, paused: bool)

  /** Seeks closer than this are skipped so that the element's own clock is
      not fought on every frame. */
  const DriftThreshold: real := 0.1

  /** The time-update effect: the element is seeked to the logical time
      only when it is a video and has drifted more than the threshold. */
  function SyncPosition(media: Option<MediaType>, video: Option<NativeVideo>, currentTime: real): (r: Option<NativeVideo>)
    ensures r.Some? <==> video.Some?
    ensures r != video <==>
              video.Some? && IsVideo(media) && Abs(video.value.position - currentTime) > DriftThreshold
    ensures video.Some? && IsVideo(media) ==> Abs(r.value.position - currentTime) <= DriftThreshold
    ensures r != video ==> r.value.position == currentTime
    ensures r.Some? ==> r.value.paused == video.value.paused
  {
    if video.None? || !IsVideo(media) then video
    else if Abs(video.value.position - currentTime) > DriftThreshold then
      Some(video.value.(position := currentTime))
    else video
  }

  /** The play-state effect: when the play flag or the item changes, the
      element is seeked to the logical time unconditionally and told to play
      or pause. `playAccepted` stands for the browser's answer to `play()`;
      a rejected play is swallowed and leaves the element paused. */
  function SyncPlayback(media: Option<MediaType>, video: Option<NativeVideo>, currentTime: real,
                        isPlaying: bool, playAccepted: bool): (r: Option<NativeVideo>)
    ensures r.Some? <==> video.Some?
    ensures !IsVideo(media) ==> r == video
    ensures video.Some? && IsVideo(media) ==> r.value.position == currentTime
    ensures video.Some? && IsVideo(media) ==> (r.value.paused <==> !(isPlaying && playAccepted))
  {
    if video.None? || !IsVideo(media) then video
    else Some(NativeVideo(currentTime, !(isPlaying && playAccepted)))
  }

  /** Right after the play-state effect the time-update effect has nothing
      to correct, and running it again is always a no-op. */
  lemma DriftSyncSettles(media: Option<MediaType>, video: Option<NativeVideo>, t: real, isPlaying: bool, ok: bool)
    ensures SyncPosition(media, SyncPlayback(media, video, t, isPlaying, ok), t)
            == SyncPlayback(media, video, t, isPlaying, ok)
    ensures SyncPosition(media, SyncPosition(media, video, t), t) == SyncPosition(media, video, t)
  {
  }

  // ---------------------------------------------------------------------
  // Drag and resize

  /** The four resize handles. */
  datatype Corner = NW | NE | SW | SE

  /** The direction string each handle passes to the resize handler; the
      resize math only asks which compass letters it contains. */
  function Direction(c: Corner): string {
    match c
    case NW => "nw"
    case NE => "ne"
    case SW => "sw"
    case SE => "se"
  }

  /** Where a pointer press lands: the item's body or one of its handles. */
  datatype Target = Body | Handle(corner: Corner)

  /** The active pointer gesture. A drag remembers the pointer's offset from
      the item's position at the press; a resize remembers the handle, the
      item as it was at the press and the press point. */
  datatype Gesture =
    | Idle
    | Dragging(anchor: Point)
    | Resizing(corner: Corner, start: MediaType, pressAt: Point)

  function Left(m: MediaType): real { m.position.x }
  function Right(m: MediaType): real { m.position.x + m.width }
  function Top(m: MediaType): real { m.position.y }
  function Bottom(m: MediaType): real { m.position.y + m.height }

  /** One mouse move of a corner resize. The grabbed edges follow the
      pointer's offset from the press point until a side reaches the floor
      of 50; the opposite edges stay where they were; nothing but the size
      and the position changes. */
  function Resize(start: MediaType, corner: Corner, pressAt: Point, pointer: Point): (r: MediaType)
    ensures r.width >= MinSide && r.height >= MinSide
    ensures r == start.(width := r.width, height := r.height, position := r.position)
    ensures 'e' in Direction(corner) ==> Left(r) == Left(start)
    ensures 'e' in Direction(corner) && start.width + (pointer.x - pressAt.x) >= MinSide ==>
              Right(r) == Right(start) + (pointer.x - pressAt.x)
    ensures 'w' in Direction(corner) ==> Right(r) == Right(start)
    ensures 'w' in Direction(corner) && start.width - (pointer.x - pressAt.x) >= MinSide ==>
              Left(r) == Left(start) + (pointer.x - pressAt.x)
    ensures 's' in Direction(corner) ==> Top(r) == Top(start)
    ensures 's' in Direction(corner) && start.height + (pointer.y - pressAt.y) >= MinSide ==>
              Bottom(r) == Bottom(start) + (pointer.y - pressAt.y)
    ensures 'n' in Direction(corner) ==> Bottom(r) == Bottom(start)
    ensures 'n' in Direction(corner) && start.height - (pointer.y - pressAt.y) >= MinSide ==>
              Top(r) == Top(start) + (pointer.y - pressAt.y)
    ensures 'e' in Direction(corner) && start.width + (pointer.x - pressAt.x) < MinSide ==> r.width == MinSide
    ensures 'w' in Direction(corner) && start.width - (pointer.x - pressAt.x) < MinSide ==> r.width == MinSide
    ensures 's' in Direction(corner) && start.height + (pointer.y - pressAt.y) < MinSide ==> r.height == MinSide
    ensures 'n' in Direction(corner) && start.height - (pointer.y - pressAt.y) < MinSide ==> r.height == MinSide
  {
    var direction := Direction(corner);
    var deltaX := pointer.x - pressAt.x;
    var deltaY := pointer.y - pressAt.y;
    var newWidth :=
      if 'e' in direction then Max(MinSide, start.width + deltaX)
      else if 'w' in direction then Max(MinSide, start.width - deltaX)
      else start.width;
    var newX :=
      if 'e' !in direction && 'w' in direction then start.position.x + (start.width - newWidth)
      else start.position.x;
    var newHeight :=
      if 's' in direction then Max(MinSide, start.height + deltaY)
      else if 'n' in direction then Max(MinSide, start.height - deltaY)
      else start.height;
    var newY :=
      if 's' !in direction && 'n' in direction then start.position.y + (start.height - newHeight)
      else start.position.y;
    start.(width := newWidth, height := newHeight, position := Point(newX, newY))
  }

  /** A pointer press. The item and its handles are rendered hidden while
      the item is not visible at `currentTime`, so with no item or a hidden
      one nothing can be pressed and nothing happens. On the body a drag
      starts, anchored at the pointer's offset from the item; on a handle a
      resize starts (the handle's press never reaches the drag handler). */
  function PointerDown(media: Option<MediaType>, currentTime: real, g: Gesture, target: Target, pointer: Point): (r: Gesture)
    ensures !IsVisible(media, currentTime) ==> r == g
    ensures IsVisible(media, currentTime) && target.Body? ==>
              r.Dragging? && Add(r.anchor, media.value.position) == pointer
    ensures IsVisible(media, currentTime) && target.Handle? ==>
              r == Resizing(target.corner, media.value, pointer)
  {
    if !IsVisible(media, currentTime) then g
    else match target
      case Body => Dragging(Sub(pointer, media.value.position))
      case Handle(c) => Resizing(c, media.value, pointer)
  }

  /** A pointer move: the item update it emits, or None when it emits
      none. A drag needs a current item and moves it to the pointer minus
      the anchor; a resize works from the item captured at its press. */
  function PointerMove(g: Gesture, media: Option<MediaType>, pointer: Point): (r: Option<MediaType>)
    ensures g.Idle? ==> r.None?
    ensures g.Dragging? ==> (r.Some? <==> media.Some?)
    ensures g.Dragging? && media.Some? ==>
              r.value == media.value.(position := r.value.position) &&
              Add(r.value.position, g.anchor) == pointer
    ensures g.Resizing? ==> r == Some(Resize(g.start, g.corner, g.pressAt, pointer))
  {
    match g
    case Idle => None
    case Dragging(anchor) =>
      if media.None? then None
      else Some(media.value.(position := Sub(pointer, anchor)))
    case Resizing(corner, start, pressAt) => Some(Resize(start, corner, pressAt, pointer))
  }

  /** A pointer release ends whatever gesture is active, wherever it
      happens. */
  function PointerUp(g: Gesture): (r: Gesture)
    ensures r.Idle?
  {
    Idle
  }

  /** A drag moves the item by exactly the pointer's travel since the press,
      so bringing the pointer back to the press point restores the item. */
  lemma DragFollowsPointer(m: MediaType, t: real, g: Gesture, pressAt: Point, pointer: Point)
    requires IsVisible(Some(m), t)
    ensures PointerMove(PointerDown(Some(m), t, g, Body, pressAt), Some(m), pointer)
            == Some(m.(position := Add(m.position, Sub(pointer, pressAt))))
    ensures PointerMove(PointerDown(Some(m), t, g, Body, pressAt), Some(m), pressAt) == Some(m)
  {
  }

  /** A press on a handle never starts a drag, and a move after a release
      emits nothing. */
  lemma NoDragFromHandleOrAfterRelease(media: Option<MediaType>, t: real, g: Gesture, c: Corner, p: Point, q: Point)
    ensures !PointerDown(media, t, g, Handle(c), p).Dragging? || g.Dragging?
    ensures PointerMove(PointerUp(g), media, q).None?
  {
  }

  /** A resize whose pointer returns to the press point gives back the item
      it started from, provided that item already respected the floor. */
  lemma ResizeAtPressPointIsIdentity(m: MediaType, c: Corner, p: Point)
    requires m.width >= MinSide && m.height >= MinSide
    ensures Resize(m, c, p, p) == m
  {
  }

  /** The two worked examples: `se` by (+30, -10) on 100x100 gives 130x90
      in place; `nw` by (+20, +20) on 100x100 at the origin gives 80x80 at
      (20, 20). */
  lemma ResizeExamples(m: MediaType)
    requires m.width == 100.0 && m.height == 100.0
    ensures var r := Resize(m, SE, Point(0.0, 0.0), Point(30.0, -10.0));
            r.width == 130.0 && r.height == 90.0 && r.position == m.position
    ensures m.position == Point(0.0, 0.0) ==>
              var r := Resize(m, NW, Point(0.0, 0.0), Point(20.0, 20.0));
              r.width == 80.0 && r.height == 80.0 && r.position == Point(20.0, 20.0)
  {
  }

  /** A resize keeps the item well formed whenever the item it started from
      was. */
  lemma ResizeKeepsWellFormed(start: MediaType, c: Corner, p: Point, q: Point)
    requires WellFormed(start)
    ensures WellFormed(Resize(start, c, p, q))
  {
  }

  // ---------------------------------------------------------------------
  // Zoom

  const MinZoom: real := 0.5
  const MaxZoom: real := 2.0

  /** A wheel event over the canvas. Only with Ctrl held does it zoom: out
      by a factor 0.9 when scrolling down, in by 1.1 otherwise, clamped to
      [0.5, 2]. */
  function Wheel(zoom: real, deltaY: real, ctrlKey: bool): (r: real)
    ensures !ctrlKey ==> r == zoom
    ensures ctrlKey ==> MinZoom <= r <= MaxZoom
    ensures ctrlKey && MinZoom <= zoom <= MaxZoom && deltaY > 0.0 ==> r <= zoom
    ensures ctrlKey && MinZoom <= zoom <= MaxZoom && deltaY <= 0.0 ==> r >= zoom
    ensures ctrlKey && deltaY > 0.0 && MinZoom <= zoom * 0.9 <= MaxZoom ==> r == zoom * 0.9
    ensures ctrlKey && deltaY <= 0.0 && MinZoom <= zoom * 1.1 <= MaxZoom ==> r == zoom * 1.1
    ensures ctrlKey && deltaY > 0.0 && zoom * 0.9 < MinZoom ==> r == MinZoom
    ensures ctrlKey && deltaY <= 0.0 && zoom * 1.1 > MaxZoom ==> r == MaxZoom
  {
    if !ctrlKey then zoom
    else
      var factor := if deltaY > 0.0 then 0.9 else 1.1;
      Min(Max(MinZoom, zoom * factor), MaxZoom)
  }
}

=== FILE: media_controls.dfy ===
/** The numeric input panel: one handler for the width, height, start and
    end fields, which clamps the typed value and ignores input that did not
    parse. */
module MediaControls {
  import opened Wrappers
  import opened MediaTypes

  /** The field names the panel passes to its change handler. */
  const Fields: set<string> := {"width", "height", "startTime", "endTime"}

  /** The change handler: the item update it emits, or None when it emits
      none. `value` is the parsed number, None where parsing gave NaN.
      Width and height are floored at 50; the start is clamped into
      `[0, endTime]`; the end is kept at or after the start; each edit
      changes only its own field and an in-range value is stored as
      typed. */
  function HandleChange(m: MediaType, property: string, value: Option<real>): (r: Option<MediaType>)
    ensures r.Some? <==> value.Some? && property in Fields
    ensures property == "width" && value.Some? ==>
              r.value == m.(width := r.value.width) && r.value.width >= MinSide &&
              (value.value >= MinSide ==> r.value.width == value.value) &&
              (value.value < MinSide ==> r.value.width == MinSide)
    ensures property == "height" && value.Some? ==>
              r.value == m.(height := r.value.height) && r.value.height >= MinSide &&
              (value.value >= MinSide ==> r.value.height == value.value) &&
              (value.value < MinSide ==> r.value.height == MinSide)
    ensures property == "startTime" && value.Some? ==>
              r.value == m.(startTime := r.value.startTime) && 0.0 <= r.value.startTime &&
              (m.endTime >= 0.0 ==> r.value.startTime <= m.endTime) &&
              (0.0 <= value.value <= m.endTime ==> r.value.startTime == value.value) &&
              (value.value > m.endTime && m.endTime >= 0.0 ==> r.value.startTime == m.endTime) &&
              (value.value < 0.0 ==> r.value.startTime == 0.0)
    ensures property == "endTime" && value.Some? ==>
              r.value == m.(endTime := r.value.endTime) && r.value.endTime >= m.startTime &&
              (value.value >= m.startTime ==> r.value.endTime == value.value) &&
              (value.value < m.startTime ==> r.value.endTime == m.startTime)
  {
    if value.None? then None
    else
      var v := value.value;
      if property == "width" then Some(m.(width := Max(MinSide, v)))
      else if property == "height" then Some(m.(height := Max(MinSide, v)))
      else if property == "startTime" then Some(m.(startTime := Max(0.0, Min(v, m.endTime))))
      else if property == "endTime" then Some(m.(endTime := Max(m.startTime, v)))
      else None
  }

  /** Every edit keeps the item well formed: sides at least 50 and
      `0 <= startTime <= endTime`. */
  lemma EditKeepsWellFormed(m: MediaType, property: string, value: Option<real>)
    requires WellFormed(m)
    ensures var r := HandleChange(m, property, value);
            r.Some? ==> WellFormed(r.value)
  {
  }

  /** Typing the same value again emits an update equal to the item it
      is applied to: an edit is idempotent. */
  lemma EditIsIdempotent(m: MediaType, property: string, value: Option<real>)
    ensures var r := HandleChange(m, property, value);
            r.Some? ==> HandleChange(r.value, property, value) == r
  {
  }
}

=== FILE: media_types.dfy ===
/** The single media item the editor places on the canvas, shared by the
    canvas, the timeline, the numeric controls and the page. */
module MediaTypes {
  import opened Wrappers

  datatype Kind = Video | Image

  /** The uploaded file; the model only needs its name and MIME type. */
  datatype File = File(name: string, mimeType: string)

  datatype Point = Point(x: real, y: real)

  /** The source's `MediaType` record: kind, file, size, time range and the
      top-left position in canvas coordinates. */
  datatype MediaType = MediaType(
    kind: Kind,
    file: File,
    width: real,
    height: real,
    startTime: real,
    endTime: real,
    position: Point)

  /** The smallest width or height any edit or resize can store. */
  const MinSide: real := 50.0

  /** The invariant every edit of the item keeps: both sides at least
      `MinSide` and a time range with `0 <= startTime <= endTime`. */
  predicate WellFormed(m: MediaType) {
    && m.width >= MinSide
    && m.height >= MinSide
    && 0.0 <= m.startTime <= m.endTime
  }

  predicate IsVideo(media: Option<MediaType>) {
    media.Some? && media.value.kind == Video
  }

  /** `Math.max` on two ordered numbers. */
  function Max(a: real, b: real): (r: real)
    ensures r >= a && r >= b
    ensures r == a || r == b
  {
    if a >= b then a else b
  }

  /** `Math.min` on two ordered numbers. */
  function Min(a: real, b: real): (r: real)
    ensures r <= a && r <= b
    ensures r == a || r == b
  {
    if a <= b then a else b
  }

  function Abs(a: real): (r: real)
    ensures r >= 0.0
    ensures r == a || r == -a
  {
    if a < 0.0 then -a else a
  }

  function Sub(p: Point, q: Point): Point {
    Point(p.x - q.x, p.y - q.y)
  }

  function Add(p: Point, q: Point): Point {
    Point(p.x + q.x, p.y + q.y)
  }
}

=== FILE: page.dfy ===
/** The page: the state it owns (the item, the time and the play flag) and
    the file-upload handler that replaces the item. */
module Page {
  import opened Wrappers
  import opened MediaTypes

  /** The state the page component owns and hands to the canvas, the
      controls and the timeline. */
  datatype AppState = AppState(media: Option<MediaType>, currentTime: real, isPlaying: bool)

  const InitialState: AppState := AppState(None, 0.0, false)

  /** A file whose MIME type starts with "video/" is loaded as a video. */
  function IsVideoFile(file: File): (r: bool)
    ensures r <==> |file.mimeType| >= 6 && file.mimeType[..6] == "video/"
  {
    "video/" <= file.mimeType
  }

  /** Default geometry of a freshly uploaded item. */
  const DefaultWidth: real := 320.0
  const DefaultHeight: real := 240.0
  const DefaultPosition: Point := Point(100.0, 100.0)
  /** How long an image stays on screen by default, in seconds. */
  const ImageDuration: real := 5.0

  /** The first step of an upload: with no file chosen nothing happens;
      otherwise the current item is cleared, playback stopped and the time
      set back to 0. */
  function BeginUpload(s: AppState, file: Option<File>): (r: AppState)
    ensures file.None? ==> r == s
    ensures file.Some? ==> r.media.None? && r.currentTime == 0.0 && !r.isPlaying
  {
    if file.None? then s else AppState(None, 0.0, false)
  }

  /** The item built once the file is known: 320x240 at (100, 100) from time
      0, ending at the video's `duration` or after 5 s for an image. */
  function InitialMedia(file: File, duration: real): (r: MediaType)
    ensures r.kind == Video <==> IsVideoFile(file)
    ensures r.file == file
    ensures r.width == DefaultWidth && r.height == DefaultHeight && r.position == DefaultPosition
    ensures r.startTime == 0.0
    ensures r.endTime == (if IsVideoFile(file) then duration else ImageDuration)
    ensures IsVideoFile(file) ==> (WellFormed(r) <==> duration >= 0.0)
    ensures !IsVideoFile(file) ==> WellFormed(r)
  {
    if IsVideoFile(file) then
      MediaType(Video, file, DefaultWidth, DefaultHeight, 0.0, duration, DefaultPosition)
    else
      MediaType(Image, file, DefaultWidth, DefaultHeight, 0.0, ImageDuration, DefaultPosition)
  }

  /** The whole upload. With no file nothing changes. Otherwise the state
      is cleared first; an image then becomes the new item at once, while a
      video waits for its metadata: `duration` is the duration it reports,
      or None when the metadata never loads, which leaves the editor
      cleared with no item. */
  function HandleFileUpload(s: AppState, file: Option<File>, duration: Option<real>): (r: AppState)
    ensures file.None? ==> r == s
    ensures file.Some? ==> r.currentTime == 0.0 && !r.isPlaying
    ensures file.Some? && IsVideoFile(file.value) && duration.None? ==> r.media.None?
    ensures file.Some? && IsVideoFile(file.value) && duration.Some? ==>
              r.media == Some(InitialMedia(file.value, duration.value))
    ensures file.Some? && !IsVideoFile(file.value) ==> r.media == Some(InitialMedia(file.value, 0.0))
    ensures (file.Some? && r.media.Some? &&
             (!IsVideoFile(file.value) || (duration.Some? && duration.value >= 0.0)))
            ==> WellFormed(r.media.value)
  {
    var cleared := BeginUpload(s, file);
    if file.None? then cleared
    else if !IsVideoFile(file.value) then cleared.(media := Some(InitialMedia(file.value, 0.0)))
    else match duration
      case None => cleared
      case Some(d) => cleared.(media := Some(InitialMedia(file.value, d)))
  }
}

=== FILE: timeline.dfy ===
/** The playback clock: the per-frame tick with its stop-and-rewind at the
    end of the range, the play/pause toggle, the clamped and rounded seek,
    the keyboard controls and the reset when the item changes. */
module Timeline {
  import opened Wrappers
  import opened MediaTypes
  import opened MediaCanvas

  /** The shared time counter in seconds and the play flag. */
  datatype Clock = Clock(time: real, playing: bool)

  /** The clock after the item changes: rewound to 0 and stopped. */
  const Rewound: Clock := Clock(0.0, false)

  /** Clamping a time into the item's range, as the seek does before
      rounding. */
  function ClampTime(m: MediaType, t: real): (r: real)
    ensures m.startTime <= m.endTime ==> m.startTime <= r <= m.endTime
    ensures m.startTime <= t <= m.endTime ==> r == t
    ensures t < m.startTime ==> r == m.startTime
    ensures t > m.endTime && m.startTime <= m.endTime ==> r == m.endTime
  {
    Max(m.startTime, Min(t, m.endTime))
  }

  /** Visibility is exactly "clamping the time into the range changes
      nothing"; the boundaries themselves are visible. */
  lemma VisibleIffClampIsIdentity(media: Option<MediaType>, t: real)
    ensures media.None? ==> !IsVisible(media, t)
    ensures media.Some? && media.value.startTime <= media.value.endTime ==>
              (IsVisible(media, t) <==> ClampTime(media.value, t) == t)
    ensures media.Some? && media.value.startTime <= media.value.endTime ==>
              IsVisible(media, media.value.startTime) && IsVisible(media, media.value.endTime)
    ensures media.Some? && media.value.startTime <= media.value.endTime ==>
              IsVisible(media, ClampTime(media.value, t))
  {
  }

  // ---------------------------------------------------------------------
  // Frame loop

  /** The loop's time origin in milliseconds, chosen when playback resumes
      at `resumeMs` so that the elapsed time starts at `time` seconds. */
  function Epoch(resumeMs: real, time: real): (r: real)
    ensures Elapsed(resumeMs, r) == time
    ensures time >= 0.0 ==> r <= resumeMs
  {
    resumeMs - time * 1000.0
  }

  /** Seconds elapsed since the epoch at the frame instant `nowMs`. */
  function Elapsed(nowMs: real, epoch: real): (r: real)
    ensures epoch + r * 1000.0 == nowMs
    ensures nowMs >= epoch ==> r >= 0.0
  {
    (nowMs - epoch) / 1000.0
  }

  /** The elapsed time continues from the clock's time at the resume
      instant and then grows by the wall-clock time since it. */
  lemma ElapsedContinuesFromResume(resumeMs: real, time: real, nowMs: real)
    ensures Elapsed(nowMs, Epoch(resumeMs, time)) == time + (nowMs - resumeMs) / 1000.0
    ensures Elapsed(resumeMs, Epoch(resumeMs, time)) == time
  {
  }

  /** The loop starts only while playing with an item; the epoch it returns
      makes the elapsed time at the start instant equal the clock's time. */
  function StartLoop(media: Option<MediaType>, c: Clock, nowMs: real): (r: Option<real>)
    ensures r.Some? <==> c.playing && media.Some?
    ensures r.Some? ==> Elapsed(nowMs, r.value) == c.time
  {
    if !c.playing || media.None? then None else Some(Epoch(nowMs, c.time))
  }

  /** One animation frame. Reaching the end of the range stops playback and
      rewinds to the start (no loop, no overshoot); before the end the time
      becomes the elapsed time and playback goes on. */
  function Tick(m: MediaType, c: Clock, epoch: real, nowMs: real): (r: Clock)
    ensures Elapsed(nowMs, epoch) >= m.endTime ==> r == Clock(m.startTime, false)
    ensures Elapsed(nowMs, epoch) < m.endTime ==>
              r.time == Elapsed(nowMs, epoch) && r.time < m.endTime && r.playing == c.playing
    ensures m.startTime <= m.endTime ==> r.time <= m.endTime
  {
    var newTime := Elapsed(nowMs, epoch);
    if newTime >= m.endTime then Clock(m.startTime, false)
    else Clock(Min(newTime, m.endTime), c.playing)
  }

  /** The frame loop run over the frame instants `frames`: frames are
      processed until playback stops, after which the loop is cancelled. */
  function RunFrames(m: MediaType, c: Clock, epoch: real, frames: seq<real>): (r: Clock)
    ensures !c.playing ==> r == c
    ensures c.playing && r.playing ==>
              (|frames| == 0 ==> r == c) &&
              (|frames| > 0 ==> r.time == Elapsed(frames[|frames| - 1], epoch) < m.endTime)
    ensures c.playing && !r.playing ==> r == Clock(m.startTime, false)
    ensures c.playing ==>
              (r.playing <==> forall i :: 0 <= i < |frames| ==> Elapsed(frames[i], epoch) < m.endTime)
    decreases |frames|
  {
    if |frames| == 0 || !c.playing then c
    else RunFrames(m, Tick(m, c, epoch, frames[0]), epoch, frames[1..])
  }

  /** Playback resumed inside the range with frame instants no earlier than
      the resume instant stays inside the range. */
  lemma ResumedPlaybackStaysInRange(m: MediaType, c: Clock, resumeMs: real, frames: seq<real>)
    requires m.startTime <= c.time < m.endTime
    requires forall i :: 0 <= i < |frames| ==> resumeMs <= frames[i]
    ensures var r := RunFrames(m, c, Epoch(resumeMs, c.time), frames);
            m.startTime <= r.time && (r.playing ==> r.time < m.endTime)
  {
  }

  // ---------------------------------------------------------------------
  // Play/pause, seek and keys

  /** The play button. Only a video can play; at or past the end of the
      range it first rewinds to the start; then the play flag flips once. */
  function TogglePlay(media: Option<MediaType>, c: Clock): (r: Clock)
    ensures !IsVideo(media) ==> r == c
    ensures IsVideo(media) ==> r.playing == !c.playing
    ensures IsVideo(media) && c.time >= media.value.endTime ==> r.time == media.value.startTime
    ensures IsVideo(media) && c.time < media.value.endTime ==> r.time == c.time
  {
    if !IsVideo(media) then c
    else
      var time := if c.time >= media.value.endTime then media.value.startTime else c.time;
      Clock(time, !c.playing)
  }

  /** Pressing play twice restores the play flag, and restores the whole
      clock when the time was before the end. */
  lemma ToggleTwice(media: Option<MediaType>, c: Clock)
    ensures TogglePlay(media, TogglePlay(media, c)).playing == c.playing
    ensures media.Some? && c.time < media.value.endTime ==> TogglePlay(media, TogglePlay(media, c)) == c
  {
  }

  /** Whether a time is a whole number of tenths of a second. */
  predicate OnTenthGrid(x: real) {
    (x * 10.0).Floor as real == x * 10.0
  }

  /** Rounding a non-negative number to one decimal place, ties upwards. */
  function RoundHalfUpTenth(x: real): (r: real)
    requires x >= 0.0
  {
    (x * 10.0 + 0.5).Floor as real / 10.0
  }

  /** Half-up rounding lands on the tenth grid, at most 0.05 away. */
  lemma HalfUpBounds(x: real)
    requires x >= 0.0
    ensures OnTenthGrid(RoundHalfUpTenth(x))
    ensures -0.05 <= RoundHalfUpTenth(x) - x <= 0.05
  {
  }

  /** Half-up rounding leaves a value already on the tenth grid alone. */
  lemma HalfUpOnGrid(x: real)
    requires x >= 0.0
    ensures OnTenthGrid(x) ==> RoundHalfUpTenth(x) == x
  {
    if OnTenthGrid(x) {
      var k := (x * 10.0).Floor;
      assert x * 10.0 + 0.5 == k as real + 0.5;
      assert (k as real + 0.5).Floor == k;
    }
  }

  /** The tenth grid is symmetric about zero. */
  lemma GridIsSymmetric(x: real)
    ensures OnTenthGrid(x) ==> OnTenthGrid(-x)
  {
    if OnTenthGrid(x) {
      var k := (x * 10.0).Floor;
      var y := -x * 10.0;
      assert y == -(x * 10.0);
      assert y == (-k) as real;
      assert y.Floor == -k;
    }
  }

  /** `Number(x.toFixed(1))` on the exact value of `x`: the magnitude is
      rounded to the nearest tenth with ties away from zero, and the sign
      is put back. */
  function RoundTenth(x: real): (r: real)
    ensures OnTenthGrid(r)
    ensures -0.05 <= r - x <= 0.05
    ensures OnTenthGrid(x) ==> r == x
    ensures (r - x == 0.05 || x - r == 0.05) ==> (x >= 0.0 ==> r > x) && (x < 0.0 ==> r < x)
  {
    if x < 0.0 then
      HalfUpBounds(-x);
      GridIsSymmetric(x);
      HalfUpOnGrid(-x);
      GridIsSymmetric(RoundHalfUpTenth(-x));
      -RoundHalfUpTenth(-x)
    else
      HalfUpBounds(x);
      HalfUpOnGrid(x);
      RoundHalfUpTenth(x)
  }

  /** The seek (`handleTimeUpdate`): with no item nothing happens; otherwise
      the time is clamped into the range and rounded to one decimal, which
      can move it by at most 0.05 s past either end; the play flag is
      untouched. A time already on the tenth grid and inside the range is
      stored exactly. */
  function Seek(media: Option<MediaType>, c: Clock, t: real): (r: Clock)
    ensures media.None? ==> r == c
    ensures r.playing == c.playing
    ensures media.Some? ==> OnTenthGrid(r.time)
    ensures media.Some? ==> -0.05 <= r.time - ClampTime(media.value, t) <= 0.05
    ensures media.Some? && 0.0 <= media.value.startTime &&
            (r.time - ClampTime(media.value, t) == 0.05 || ClampTime(media.value, t) - r.time == 0.05)
            ==> r.time > ClampTime(media.value, t)
    ensures media.Some? && media.value.startTime <= media.value.endTime ==>
              media.value.startTime - 0.05 <= r.time <= media.value.endTime + 0.05
    ensures media.Some? && media.value.startTime <= t <= media.value.endTime && OnTenthGrid(t) ==> r.time == t
  {
    if media.None? then c
    else c.(time := RoundTenth(ClampTime(media.value, t)))
  }

  /** Rounding after the clamp can leave the range: with the range
      [0, 5.06] a seek far past the end stores 5.1. */
  lemma SeekCanPassEnd(m: MediaType, c: Clock)
    requires m.startTime == 0.0 && m.endTime == 5.06
    ensures Seek(Some(m), c, 100.0).time == 5.1
    ensures !IsVisible(Some(m), Seek(Some(m), c, 100.0).time)
  {
  }

  /** The step the arrow keys move the time by. */
  const Nudge: real := 0.1

  /** A key press: Space toggles play for a video, with the same rewind
      rule as the button; the left and right arrows seek 0.1 s back or
      forward through the same clamp; any other key does nothing. */
  function KeyDown(code: string, media: Option<MediaType>, c: Clock): (r: Clock)
    ensures code == "Space" ==> r == TogglePlay(media, c)
    ensures code == "ArrowLeft" ==> r == Seek(media, c, c.time - Nudge)
    ensures code == "ArrowRight" ==> r == Seek(media, c, c.time + Nudge)
    ensures code != "Space" ==> r.playing == c.playing
    ensures code !in {"Space", "ArrowLeft", "ArrowRight"} ==> r == c
  {
    if code == "Space" && IsVideo(media) then TogglePlay(media, c)
    else if code == "ArrowLeft" then Seek(media, c, c.time - Nudge)
    else if code == "ArrowRight" then Seek(media, c, c.time + Nudge)
    else c
  }

  /** On the tenth grid and with room before the end, the right arrow moves
      exactly 0.1 s forward and the left arrow undoes it. */
  lemma NudgeRoundTrip(media: Option<MediaType>, c: Clock)
    requires media.Some?
    requires OnTenthGrid(c.time)
    requires media.value.startTime <= c.time && c.time + Nudge <= media.value.endTime
    ensures KeyDown("ArrowRight", media, c).time == c.time + Nudge
    ensures KeyDown("ArrowLeft", media, KeyDown("ArrowRight", media, c)) == c
  {
    var m := media.value;
    var up := c.time + Nudge;
    var k := (c.time * 10.0).Floor;
    assert up * 10.0 == (k + 1) as real;
    assert OnTenthGrid(up);
    var right := Seek(media, c, up);
    assert right.time == up;
    assert KeyDown("ArrowRight", media, c) == right;
    assert right.time - Nudge == c.time;
    var left := Seek(media, right, c.time);
    assert left.time == c.time;
    assert KeyDown("ArrowLeft", media, right) == left;
  }
}

=== FILE: wrappers.dfy ===
/** The optional-value wrapper used for "no media selected", for numeric
    input that failed to parse (NaN) and for a video whose metadata never
    arrives. */
module Wrappers {

  datatype Option<+T> = None | Some(value: T)
}
